=== FILE: README.md ===
# processor_test in Dafny

A model of the keyed publish/subscribe dispatcher `Processor<KeyT, ValueT>`.
Producers push values under a key. A consumer subscribes to a key. A
background thread wakes on a coalescing signal and sweeps the registry. During
a sweep it drains, in FIFO order, the queue of every key that has a consumer
bound. Each of the three components is modelled as a single-threaded state
machine:

- `thread_safe_queue.dfy` (module `TwoLockQueue`) models the two-pointer
  linked queue of `ThreadSafeQueue.h`.
  - The data is real heap nodes, with a tail sentinel and a size counter.
  - A ghost `Contents` gives the public view.
  - A ghost `Spine` lists the nodes from head to tail, and `Valid()` states
    the sentinel invariant.
- `signal_dispatcher.dfy` (module `SignalDispatch`) models the wakeup flag of
  `SignalDispatcher.h`.
  - It is a class whose methods set and clear the flag.
  - `Next`/`Replay` describe the same transitions over histories of signals
    and waits.
  - The coalescing rule is proved over those histories.
- `registry.dfy` (module `Registry`) states, as pure functions on a map value,
  the rules that `Processor.h` follows:
  - find-or-create, subscribe, unsubscribe, push with capacity, and the sweep.
  - Trace lemmas over whole histories of calls (`Run`), covering conservation,
    FIFO order per key, capacity, the registry only growing, and isolation
    between consumers.
- `processor.dfy` (module `Dispatch`) holds the `Processor` class.
  - Fields: the registry, the running flag, its dispatcher, and the log of
    consumer calls.
  - Each method is proved to change the registry exactly as the matching
    `Registry` rule says.
  - Each method raises the signal exactly when the source does.
  - The sweep is a loop over the keys that runs an inner pop loop per bound
    key.
- `wrappers.dfy` holds `Option`.

Consumers are identified by number (`ConsumerId`). Calling
`consumer->Consume(key, value)` is modelled by appending
`Delivery(consumer, key, value)` to the processor's `delivered` log.

## Model

| member | source | states |
|---|---|---|
| TwoLockQueue.Node.constructor | ThreadSafeQueue.h:10-13 | a new node carries no value and has no successor |
| TwoLockQueue.ThreadSafeQueue.constructor | ThreadSafeQueue.h:16-20 | a new queue satisfies the sentinel invariant and is empty: head and tail are the same sentinel node and the size counter is 0 |
| TwoLockQueue.ThreadSafeQueue.Size | ThreadSafeQueue.h:47 | the counter equals the number of data-carrying nodes, i.e. the number of queued values |
| TwoLockQueue.ThreadSafeQueue.Push | ThreadSafeQueue.h:34-45 | the value is appended at the back and earlier values are unchanged; the old tail now carries the value and links to the new tail, which is a freshly allocated empty sentinel and the only node added to the footprint; the counter grows by one (through `Valid`) |
| TwoLockQueue.ThreadSafeQueue.PopHead | ThreadSafeQueue.h:50-61 | returns null exactly when head is the tail sentinel, and then nothing at all changes; otherwise the returned node is the old head, detached: it has left the queue's footprint and its link is cleared. It holds the oldest value, exactly that value leaves the queue, the counter drops by one and the invariant still holds |
| TwoLockQueue.ThreadSafeQueue.TryPop | ThreadSafeQueue.h:28-32 | None exactly when the queue is empty, with nothing changed; otherwise the oldest value, which the matching push stored, removed from the front |
| TwoLockQueue.FifoRoundTrip | ThreadSafeQueue.h:34-61 | pushing any sequence of values into a new queue and then popping until empty yields the same values, in push order |
| SignalDispatch.SignalDispatcher.constructor | SignalDispatcher.h:23 | a new dispatcher has its flag clear |
| SignalDispatch.SignalDispatcher.Signal | SignalDispatcher.h:8-13 | the flag is set whatever it was before, one notification is issued, and this agrees with the `Ring` transition of `Next` |
| SignalDispatch.SignalDispatcher.WaitForSignal | SignalDispatcher.h:15-20 | can return only when the flag is set; afterwards the flag is clear, agreeing with the `Wait` transition of `Next` |
| SignalDispatch.SignalsCoalesce | SignalDispatcher.h:8-13 | any positive number of consecutive signals leaves the same state as one, whatever the flag was before |
| SignalDispatch.OneWakeupPerBurst | SignalDispatcher.h:8-23 | starting from a clear flag, a burst of signals followed by one wait returns to the initial clear state, and a second wait would block |
| SignalDispatch.WaitsBoundedBySignals | SignalDispatcher.h:8-20 | in any history that does not block, completed waits never outnumber signals (plus one if the flag started set), and strictly fewer if the flag is still set |
| Registry.Touch | Processor.h:93-108 | find-or-create: the key set gains exactly `k`; existing records are untouched; a new key gets an empty queue and no consumer |
| Registry.Subscribe | Processor.h:43-61 | succeeds if and only if the key is new or has no consumer; the key then has `c` bound, otherwise it keeps the old consumer; the queue of `k` and every other record are unchanged; the record is created if missing |
| Registry.Unsubscribe | Processor.h:63-71 | a known key loses its consumer and keeps its queue; the key set never changes, so an unknown key stays unknown; other records are unchanged |
| Registry.Push | Processor.h:73-90 | succeeds if and only if the key's queue holds fewer than `cap` values; on success the value is appended, and on failure the queue stays as it was; the consumer is kept (none for a new key); other records are unchanged |
| Registry.ValuesForDeliverAll | Processor.h:122-124 | draining a queue to its consumer delivers, for that key, exactly the queued values in queue order, and nothing for any other key |
| Registry.SweepInOrder | Processor.h:117-126 | a sweep never adds or removes a key |
| Registry.SweepLeaves | Processor.h:117-126 | after a sweep, every visited key with a bound consumer has an empty queue and keeps its consumer; every other record is exactly as before |
| Registry.SweepDeliversPerKey | Processor.h:117-126 | a visited key with a bound consumer receives exactly its queued values, in FIFO order; a key with no consumer receives nothing |
| Registry.SweepDeliversToBoundConsumer | Processor.h:119-125 | every delivery of a sweep goes to the consumer that was bound to that key |
| Registry.FullSweepDrainsBound | Processor.h:117-126 | a sweep that visits every key leaves the same registry whatever the visiting order: bound queues emptied, everything else unchanged |
| Registry.StepConserves | Processor.h:73-128 | a single call moves values of a key only from an accepted push into the queue, and from the queue into the delivery log |
| Registry.RunConserves | Processor.h:73-128 | over any history of calls, the values delivered for a key followed by those still queued equal the values previously there followed by the accepted pushes, in push order: no loss, no duplication, no reordering |
| Registry.FinalSweepDeliversAccepted | Processor.h:36-41 | from a fresh processor, after any history followed by a sweep that visits a key with a bound consumer (such as the one the destructor triggers when the background thread is blocked in the wait), the values delivered for the key are exactly the accepted pushes to it, in push order |
| Registry.DeliveredInPushOrder | Processor.h:73-128 | starting from an empty processor, the values delivered for a key are always a prefix of the values accepted for it |
| Registry.PushesUntilFull | Processor.h:78-85 | pushing values one after another to a key whose queue holds `m` values, with no sweep in between, the i-th push succeeds exactly when `m + i < cap`: the pushes before the queue fills are accepted and every later one is rejected |
| Registry.RunWithinCapacity | Processor.h:80 | over any history starting within capacity, no queue ever holds more than `cap` values |
| Registry.RunKeepsKeys | Processor.h:131 | the registry only grows: no call removes a key |
| Registry.SecondSubscriberGetsNothing | Processor.h:48-60 | subscribing a second consumer to a key fails, and if the first subscription succeeded then every delivery for that key in the sweep that follows goes to the first consumer |
| Registry.StepKeepsBinding | Processor.h:43-128 | any single call other than an unsubscribe of the key keeps its consumer bound, only appends to the delivery log, and delivers the key's values to that consumer alone |
| Registry.BoundConsumerKeepsKey | Processor.h:43-128 | over any history with no unsubscribe of the key, a bound consumer stays bound (later subscriptions cannot take the key over) and every delivery for the key made during that history goes to it |
| Registry.UnsubscribePausesDelivery | Processor.h:63-71 | after unsubscribe, a sweep delivers nothing for the key and keeps its queue; a subscription made after that sweep succeeds, and the next sweep delivers exactly the values queued at the unsubscribe, in order |
| Dispatch.Processor.constructor | Processor.h:25-29 | a new processor has the given capacity (10000 by default), an empty registry, no deliveries, no pending signal and is running |
| Dispatch.Processor.FindQueuePair | Processor.h:93-108 | with creation allowed, the registry becomes `Touch` of the old one; without it, the registry is unchanged; the result says whether the key now has a record |
| Dispatch.Processor.TrySubscribe | Processor.h:43-61 | the new registry and the result are those of `Registry.Subscribe`; the signal is raised (one notification) exactly when the subscription succeeded; the delivery log is unchanged |
| Dispatch.Processor.Unsubscribe | Processor.h:63-71 | the new registry is that of `Registry.Unsubscribe`; no signal is raised, since the dispatcher is not in the frame |
| Dispatch.Processor.TryPush | Processor.h:73-90 | the new registry and the result are those of `Registry.Push` with the processor's capacity; the signal is raised exactly when the value was accepted; capacity is kept |
| Dispatch.Processor.Drain | Processor.h:122-124 | popping until empty leaves the key's queue empty, changes no other record, and appends one delivery per queued value to the given consumer, in FIFO order |
| Dispatch.Processor.Sweep | Processor.h:117-126 | visits every key exactly once in some order (`visited` lists each key once and no other); the registry becomes `Drained` of the old one (independent of the order); the log gains exactly the deliveries of that order's sweep |
| Dispatch.Processor.ProcessOnce | Processor.h:110-128 | one loop iteration consumes the signal (clearing the flag, issuing no notification) and performs a full sweep as above, visiting each key exactly once |
| Dispatch.Processor.Shutdown | Processor.h:36-41 | the running flag is cleared and the signal raised (exactly one notification) in every case. If the background thread is blocked in the wait, the signal is consumed and a final sweep visiting each key once delivers everything queued for a bound key. If the thread has finished a sweep and not yet tested the running flag, it ends at once: nothing more is delivered, the queues are unchanged and the signal stays pending |

## Left out

- Threads and synchronisation are not modelled. That covers the mutexes, the shared mutex, the condition variable, the atomics and the background `std::thread`. Each operation is one sequential step, and atomics are plain fields.
- The soft-capacity race between `size()` and `push` under concurrent producers only exists with threads, so it is not modelled.
- Consumer objects are not modelled: no `IConsumer` virtual call and no consumer lifetime. Consumers are numbers, and a call to `Consume` is an entry in `delivered`.
- Move semantics and the `shared_ptr`/`unique_ptr` ownership of values and nodes are not modelled. A popped value is the stored value itself.
- The `std::function` callback of `do_for_queue_pair` is inlined: each operation performs its lookup and its update directly.
- The test program (`main.cpp`) is not modelled. That covers its checker, mock producers, sleeps and `double` values.
  - Some of its assertions are stated as lemmas. The capacity test is `PushesUntilFull`. The subscribe-twice test is `SecondSubscriberGetsNothing` and `BoundConsumerKeepsKey`. The unsubscribe test is `UnsubscribePausesDelivery`.
  - The per-consumer delivery counts checked after the destructor are stated generally by `FinalSweepDeliversAccepted` (every accepted value of a bound key is delivered) and `SweepDeliversPerKey` (an unbound key receives nothing), not for the tests' concrete inputs.
- Dispatch.Processor: each key's queue is a sequence value inside `queues`, not a `ThreadSafeQueue` object.
  - So the node-level update in place and aliasing of each queue inside the processor are not captured there.
  - The queue class is proved on its own, with `Push`/`TryPop` contracts that match the sequence operations the processor uses (append at the back, remove from the front).
- Dispatch.Processor.Sweep: the iteration order of `std::unordered_map` is unspecified. The model picks each next key arbitrarily and returns the order as ghost `visited`. The proved results hold for every order.
- Dispatch.Processor.ProcessOnce: blocking in `wait_for_signal` is modelled as the precondition that the flag is set. The `while (m_running)` loop is modelled by one iteration. The loop tests the flag only at its top (Processor.h:112).
- Dispatch.Processor.Shutdown: the background thread's position when the destructor runs is a parameter. Two positions are modelled: blocked in the wait, or between the end of a sweep and the next flag test. A thread in the middle of a sweep is not modelled, since that needs interleaving.
  - In the second position, values pushed after the last sweep are never delivered. The model states this: queues and the delivery log are unchanged.
  - The model does not claim that the destructor always delivers everything.
- SignalDispatch.SignalDispatcher.Signal: `notify_all` is recorded only as a ghost notification counter.

=== FILE: processor.dfy ===
/** The dispatch engine of Processor.h, run by one thread. `queues` is the
    registry: for every key seen so far, the values waiting for it and the
    consumer bound to it. Each operation is proved to change it exactly as the
    matching rule of module Registry says. Consumers are identified by number;
    delivering a value to a consumer appends a Delivery to `delivered`. */
module Dispatch {
  import opened Wrappers
  import opened Registry
  import opened SignalDispatch

  /** Where the background loop stands when the destructor runs: blocked in
      the wait for the signal, or between the end of a sweep and the next test
      of the running flag. */
  datatype LoopPosition = WaitingForSignal | BeforeRunningCheck

  class Processor<K(==), V> {
    const maxQueueCapacity: nat
    const dispatcher: SignalDispatcher
    var queues: Reg<K, V>
    var running: bool
    /** Every consumer call made so far, oldest first. */
    var delivered: seq<Delivery<K, V>>

    /** No queue holds more values than the capacity allows. */
    ghost predicate Valid()
      reads this
    {
      WithinCapacity(queues, maxQueueCapacity)
    }

    /** A processor with no keys, no deliveries and no pending signal. The
        background thread it starts is not modelled; `ProcessOnce` is one
        iteration of it. */
    constructor (maxQueueCapacity: nat := DefaultCapacity)
      ensures Valid()
      ensures this.maxQueueCapacity == maxQueueCapacity && fresh(dispatcher)
      ensures queues == map[] && delivered == [] && running && !dispatcher.flag
    {
      this.maxQueueCapacity := maxQueueCapacity;
      dispatcher := new SignalDispatcher();
      queues := map[];
      running := true;
      delivered := [];
    }

    /** Finds the record of `k`, creating an empty unbound one when `k` is new
        and `create` allows it (do_for_queue_pair and its creation policy). */
    method FindQueuePair(k: K, create: bool) returns (found: bool)
      requires Valid()
      modifies this`queues
      ensures Valid()
      ensures queues == if create then Touch(old(queues), k) else old(queues)
      ensures found <==> k in queues
    {
      if k in queues {
        return true;
      }
      if create {
        queues := queues[k := NewStream()];
        return true;
      }
      return false;
    }

    /** try_subscribe: binds `c` only when `k` has no consumer, and raises the
        wakeup signal exactly when the binding succeeded. */
    method TrySubscribe(k: K, c: ConsumerId) returns (ok: bool)
      requires Valid()
      modifies this, dispatcher
      ensures Valid()
      ensures (queues, ok) == Subscribe(old(queues), k, c)
      ensures dispatcher.flag == (old(dispatcher.flag) || ok)
      ensures dispatcher.notifications == old(dispatcher.notifications) + (if ok then 1 else 0)
      ensures delivered == old(delivered) && running == old(running)
    {
      var _ := FindQueuePair(k, true);
      ok := false;
      if queues[k].consumer == None {
        queues := queues[k := queues[k].(consumer := Some(c))];
        ok := true;
      }
      if ok {
        dispatcher.Signal();
      }
    }

    /** unsubscribe: clears the consumer of a known key, keeps its queue, never
        creates a record and never raises the signal. */
    method Unsubscribe(k: K)
      requires Valid()
      modifies this
      ensures Valid()
      ensures queues == Registry.Unsubscribe(old(queues), k)
      ensures delivered == old(delivered) && running == old(running)
    {
      var found := FindQueuePair(k, false);
      if found {
        queues := queues[k := queues[k].(consumer := None)];
      }
    }

    /** try_push: appends `v` to the queue of `k` (created if new) only while
        that queue holds fewer than `maxQueueCapacity` values, and raises the
        wakeup signal exactly when the value was accepted. */
    method TryPush(k: K, v: V) returns (ok: bool)
      requires Valid()
      modifies this, dispatcher
      ensures Valid()
      ensures (queues, ok) == Push(old(queues), k, v, maxQueueCapacity)
      ensures dispatcher.flag == (old(dispatcher.flag) || ok)
      ensures dispatcher.notifications == old(dispatcher.notifications) + (if ok then 1 else 0)
      ensures delivered == old(delivered) && running == old(running)
    {
      var _ := FindQueuePair(k, true);
      ok := false;
      if |queues[k].pending| < maxQueueCapacity {
        queues := queues[k := queues[k].(pending := queues[k].pending + [v])];
        ok := true;
      }
      if ok {
        dispatcher.Signal();
      }
    }

    /** Pops the queue of `k` until it is empty, handing each value to
        consumer `c` in the order popped. */
    method Drain(k: K, c: ConsumerId)
      requires Valid() && k in queues
      modifies this`queues, this`delivered
      ensures Valid()
      ensures queues == old(queues)[k := old(queues)[k].(pending := [])]
      ensures delivered == old(delivered) + DeliverAll(c, k, old(queues)[k].pending)
    {
      ghost var values := queues[k].pending;
      ghost var n := 0;
      while queues[k].pending != []
        invariant 0 <= n <= |values|
        invariant k in queues && queues == old(queues)[k := old(queues)[k].(pending := values[n..])]
        invariant delivered == old(delivered) + DeliverAll(c, k, values[..n])
        invariant Valid()
        decreases |queues[k].pending|
      {
        var v := queues[k].pending[0];
        queues := queues[k := queues[k].(pending := queues[k].pending[1..])];
        delivered := delivered + [Delivery(c, k, v)];
        n := n + 1;
        assert DeliverAll(c, k, values[..n]) == DeliverAll(c, k, values[..n - 1]) + [Delivery(c, k, v)];
      }
      assert values[..n] == values;
    }

    /** One sweep of the registry: visits every key once, in an order the
        model does not fix (returned as `visited`), and drains the queue of
        every key that has a consumer bound. */
    method Sweep() returns (ghost visited: seq<K>)
      requires Valid()
      modifies this`queues, this`delivered
      ensures Valid()
      ensures forall k :: k in old(queues) <==> k in visited
      ensures forall i, j :: 0 <= i < j < |visited| ==> visited[i] != visited[j]
      ensures queues == SweepInOrder(old(queues), visited).0 == Drained(old(queues))
      ensures delivered == old(delivered) + SweepInOrder(old(queues), visited).1
    {
      ghost var reg0 := queues;
      var remaining := queues.Keys;
      visited := [];
      while remaining != {}
        invariant Valid()
        invariant remaining <= reg0.Keys
        invariant forall k :: k in reg0 ==> (k in remaining <==> k !in visited)
        invariant forall k :: k in visited ==> k in reg0
        invariant forall i, j :: 0 <= i < j < |visited| ==> visited[i] != visited[j]
        invariant queues == SweepInOrder(reg0, visited).0
        invariant delivered == old(delivered) + SweepInOrder(reg0, visited).1
        decreases remaining
      {
        var k :| k in remaining;
        ghost var prev := SweepInOrder(reg0, visited);
        ghost var step := Visit(prev.0, k);
        SweepStep(reg0, visited, k);
        if queues[k].consumer.Some? {
          Drain(k, queues[k].consumer.value);
        }
        assert queues == step.0;
        assert delivered == old(delivered) + (prev.1 + step.1);
        remaining := remaining - {k};
        visited := visited + [k];
      }
      FullSweepDrainsBound(reg0, visited);
    }

    /** One iteration of the background loop: wait for the signal (which must
        be set for the wait to return), then sweep. */
    method ProcessOnce() returns (ghost visited: seq<K>)
      requires Valid() && dispatcher.flag
      modifies this, dispatcher
      ensures Valid()
      ensures !dispatcher.flag && dispatcher.notifications == old(dispatcher.notifications)
      ensures forall k :: k in old(queues) <==> k in visited
      ensures forall i, j :: 0 <= i < j < |visited| ==> visited[i] != visited[j]
      ensures queues == Drained(old(queues))
      ensures delivered == old(delivered) + SweepInOrder(old(queues), visited).1
      ensures running == old(running)
    {
      dispatcher.WaitForSignal();
      visited := Sweep();
    }

    /** The destructor: clear the running flag, raise the signal, and let the
        background thread finish. What happens next depends on where that
        thread stands, which is given as `at`. A thread blocked in the wait is
        woken by the signal, runs one last sweep, then sees the cleared flag
        and ends: everything queued for a bound key is delivered. A thread
        that has finished a sweep but not yet tested the running flag sees it
        cleared and ends at once: nothing more is delivered and the signal is
        left pending. */
    method Shutdown(at: LoopPosition) returns (ghost visited: seq<K>)
      requires Valid()
      modifies this, dispatcher
      ensures Valid()
      ensures !running
      ensures dispatcher.notifications == old(dispatcher.notifications) + 1
      ensures at == WaitingForSignal ==>
                !dispatcher.flag &&
                (forall k :: k in old(queues) <==> k in visited) &&
                (forall i, j :: 0 <= i < j < |visited| ==> visited[i] != visited[j]) &&
                queues == Drained(old(queues)) &&
                delivered == old(delivered) + SweepInOrder(old(queues), visited).1
      ensures at == BeforeRunningCheck ==>
                dispatcher.flag && visited == [] &&
                queues == old(queues) && delivered == old(delivered)
    {
      running := false;
      dispatcher.Signal();
      if at == WaitingForSignal {
        visited := ProcessOnce();
      } else {
        visited := [];
      }
    }
  }
}

=== FILE: registry.dfy ===
/** The keyed registry of Processor.h as a value: for every key seen so far,
    the values waiting in its queue and the consumer bound to it, if any. The
    processor class keeps its state equal to such a value; the functions here
    are the rules its operations follow, and the lemmas are what those rules
    guarantee over whole histories of calls. */
module Registry {
  import opened Wrappers

  /** Consumers are identified by an opaque number. */
  type ConsumerId = nat

  /** The capacity a processor gets when none is given. */
  const DefaultCapacity: nat := 10000

  datatype StreamState<V> = StreamState(pending: seq<V>, consumer: Option<ConsumerId>)

  type Reg<K, V> = map<K, StreamState<V>>

  /** One call of a consumer: `consumer` received `value` for `key`. */
  datatype Delivery<K, V> = Delivery(consumer: ConsumerId, key: K, value: V)

  /** The record a key gets when it is first seen: empty queue, no consumer. */
  function NewStream<V>(): StreamState<V>
  {
    StreamState([], None)
  }

  /** The values waiting for `k`; a key never seen has none. */
  function PendingAt<K, V>(r: Reg<K, V>, k: K): seq<V>
  {
    if k in r then r[k].pending else []
  }

  /** Find-or-create: the registry in which `k` has a record, adding an empty,
      unbound one only when `k` is new. */
  function Touch<K, V>(r: Reg<K, V>, k: K): (r': Reg<K, V>)
    ensures r'.Keys == r.Keys + {k}
    ensures forall j :: j in r ==> r'[j] == r[j]
    ensures k !in r ==> r'[k] == NewStream()
  {
    if k in r then r else r[k := NewStream()]
  }

  /** try_subscribe: binds `c` to `k` exactly when no consumer is bound; the
      record is created if needed, and the queue is never touched. */
  function Subscribe<K, V>(r: Reg<K, V>, k: K, c: ConsumerId): (res: (Reg<K, V>, bool))
    ensures res.1 <==> (k !in r || r[k].consumer == None)
    ensures res.0.Keys == r.Keys + {k}
    ensures res.0[k].pending == PendingAt(r, k)
    ensures res.0[k].consumer == if res.1 then Some(c) else r[k].consumer
    ensures forall j :: j in r && j != k ==> res.0[j] == r[j]
  {
    var r1 := Touch(r, k);
    if r1[k].consumer == None then (r1[k := r1[k].(consumer := Some(c))], true)
    else (r1, false)
  }

  /** unsubscribe: clears the binding of a known key, keeps its queue, and
      changes nothing (in particular creates nothing) for an unknown key. */
  function Unsubscribe<K, V>(r: Reg<K, V>, k: K): (r': Reg<K, V>)
    ensures r'.Keys == r.Keys
    ensures k in r ==> r'[k] == StreamState(r[k].pending, None)
    ensures forall j :: j in r && j != k ==> r'[j] == r[j]
  {
    if k in r then r[k := r[k].(consumer := None)] else r
  }

  /** try_push: creates the record if needed, then appends `v` exactly when
      the queue holds fewer than `cap` values; a rejected value leaves every
      queue as it was. */
  function Push<K, V>(r: Reg<K, V>, k: K, v: V, cap: nat): (res: (Reg<K, V>, bool))
    ensures res.1 <==> |PendingAt(r, k)| < cap
    ensures res.0.Keys == r.Keys + {k}
    ensures res.0[k].pending == PendingAt(r, k) + (if res.1 then [v] else [])
    ensures res.0[k].consumer == if k in r then r[k].consumer else None
    ensures forall j :: j in r && j != k ==> res.0[j] == r[j]
  {
    var r1 := Touch(r, k);
    if |r1[k].pending| < cap then (r1[k := r1[k].(pending := r1[k].pending + [v])], true)
    else (r1, false)
  }

  /** Every value of `vs`, in order, delivered to `c` for `k`. */
  function DeliverAll<K, V>(c: ConsumerId, k: K, vs: seq<V>): seq<Delivery<K, V>>
  {
    seq(|vs|, i requires 0 <= i < |vs| => Delivery(c, k, vs[i]))
  }

  /** One step of the sweep: a key with a bound consumer has its whole queue
      delivered to that consumer and emptied; any other key is left alone. */
  function Visit<K, V>(r: Reg<K, V>, k: K): (Reg<K, V>, seq<Delivery<K, V>>)
  {
    if k in r && r[k].consumer.Some? then
      (r[k := r[k].(pending := [])], DeliverAll(r[k].consumer.value, k, r[k].pending))
    else (r, [])
  }

  /** The sweep visiting the keys in `order`, one after the other. */
  function SweepInOrder<K, V>(r: Reg<K, V>, order: seq<K>): (res: (Reg<K, V>, seq<Delivery<K, V>>))
    ensures res.0.Keys == r.Keys
    decreases |order|
  {
    if order == [] then (r, [])
    else
      var prev := SweepInOrder(r, order[..|order| - 1]);
      var last := Visit(prev.0, order[|order| - 1]);
      (last.0, prev.1 + last.1)
  }

  /** Visiting one more key continues the sweep from where it stood. */
  lemma SweepStep<K, V>(r: Reg<K, V>, order: seq<K>, k: K)
    ensures var prev := SweepInOrder(r, order);
            var last := Visit(prev.0, k);
            SweepInOrder(r, order + [k]) == (last.0, prev.1 + last.1)
  {
  }

  /** What a sweep leaves behind: the queue of every visited key with a
      bound consumer is empty; every other record is as it was. */
  lemma {:induction false} SweepLeaves<K, V>(r: Reg<K, V>, order: seq<K>)
    ensures forall k :: k in r ==>
              SweepInOrder(r, order).0[k] ==
              if k in order && r[k].consumer.Some? then r[k].(pending := []) else r[k]
    decreases |order|
  {
    if order != [] {
      SweepLeaves(r, order[..|order| - 1]);
      assert forall k :: k in order <==> k in order[..|order| - 1] || k == order[|order| - 1];
    }
  }

  /** The values delivered for `k`, in delivery order. */
  function ValuesFor<K(==), V>(log: seq<Delivery<K, V>>, k: K): seq<V>
    decreases |log|
  {
    if log == [] then []
    else ValuesFor(log[..|log| - 1], k) + (if log[|log| - 1].key == k then [log[|log| - 1].value] else [])
  }

  lemma {:induction false} ValuesForAppend<K, V>(a: seq<Delivery<K, V>>, b: seq<Delivery<K, V>>, k: K)
    ensures ValuesFor(a + b, k) == ValuesFor(a, k) + ValuesFor(b, k)
    decreases |b|
  {
    if b == [] {
      assert a + b == a;
    } else {
      assert (a + b)[..|a + b| - 1] == a + b[..|b| - 1];
      ValuesForAppend(a, b[..|b| - 1], k);
    }
  }

  lemma {:induction false} ValuesForDeliverAll<K, V>(c: ConsumerId, k: K, vs: seq<V>, j: K)
    ensures ValuesFor(DeliverAll(c, k, vs), j) == if j == k then vs else []
    decreases |vs|
  {
    if vs != [] {
      var d := DeliverAll(c, k, vs);
      assert d[..|d| - 1] == DeliverAll(c, k, vs[..|vs| - 1]);
      ValuesForDeliverAll(c, k, vs[..|vs| - 1], j);
      if j == k { assert vs[..|vs| - 1] + [vs[|vs| - 1]] == vs; }
    }
  }

  /** Per-key delivery of a sweep: a key with a bound consumer that the sweep
      visits receives exactly its queued values, in FIFO order; every other
      key receives nothing. */
  lemma {:induction false} SweepDeliversPerKey<K, V>(r: Reg<K, V>, order: seq<K>, k: K)
    ensures ValuesFor(SweepInOrder(r, order).1, k) ==
            if k in r && k in order && r[k].consumer.Some? then r[k].pending else []
    decreases |order|
  {
    if order != [] {
      var init := order[..|order| - 1];
      var last := order[|order| - 1];
      var prev := SweepInOrder(r, init);
      SweepLeaves(r, init);
      SweepDeliversPerKey(r, init, k);
      ValuesForAppend(prev.1, Visit(prev.0, last).1, k);
      if last in prev.0 && prev.0[last].consumer.Some? {
        ValuesForDeliverAll(prev.0[last].consumer.value, last, prev.0[last].pending, k);
      }
      assert k in order <==> k in init || k == last;
    }
  }

  /** Only the bound consumer of a key ever receives that key's values. */
  lemma {:induction false} SweepDeliversToBoundConsumer<K, V>(r: Reg<K, V>, order: seq<K>)
    ensures forall d :: d in SweepInOrder(r, order).1 ==>
              d.key in r && r[d.key].consumer == Some(d.consumer)
    decreases |order|
  {
    if order != [] {
      SweepLeaves(r, order[..|order| - 1]);
      SweepDeliversToBoundConsumer(r, order[..|order| - 1]);
    }
  }

  /** The registry after a complete sweep: every queue whose key has a bound
      consumer is empty, every other record is unchanged. */
  function Drained<K, V>(r: Reg<K, V>): Reg<K, V>
  {
    map k | k in r :: if r[k].consumer.Some? then r[k].(pending := []) else r[k]
  }

  /** A sweep that visits every key, in any order, leaves the same registry. */
  lemma FullSweepDrainsBound<K, V>(r: Reg<K, V>, order: seq<K>)
    requires forall k :: k in r ==> k in order
    ensures SweepInOrder(r, order).0 == Drained(r)
  {
    var r' := SweepInOrder(r, order).0;
    SweepLeaves(r, order);
    assert forall k :: k in r ==> r'[k] == Drained(r)[k];
  }

  /** No queue of the registry holds more than `cap` values. */
  ghost predicate WithinCapacity<K, V>(r: Reg<K, V>, cap: nat)
  {
    forall k :: k in r ==> |r[k].pending| <= cap
  }

  /** The calls a history is made of. A sweep visits the keys in the order
      given; a sweep of the processor lists every key once. */
  datatype Op<K, V> =
    | SubscribeOp(key: K, consumer: ConsumerId)
    | UnsubscribeOp(key: K)
    | PushOp(key: K, value: V)
    | SweepOp(order: seq<K>)

  /** The registry together with everything delivered so far. */
  datatype World<K, V> = World(reg: Reg<K, V>, log: seq<Delivery<K, V>>)

  /** One call, and the boolean it returns (false for calls that return
      nothing). */
  function Step<K, V>(w: World<K, V>, op: Op<K, V>, cap: nat): (World<K, V>, bool)
  {
    match op
    case SubscribeOp(k, c) => var res := Subscribe(w.reg, k, c); (World(res.0, w.log), res.1)
    case UnsubscribeOp(k) => (World(Unsubscribe(w.reg, k), w.log), false)
    case PushOp(k, v) => var res := Push(w.reg, k, v, cap); (World(res.0, w.log), res.1)
    case SweepOp(order) => var res := SweepInOrder(w.reg, order); (World(res.0, w.log + res.1), false)
  }

  /** A whole history, and the result of each call in it. */
  function Run<K, V>(w: World<K, V>, ops: seq<Op<K, V>>, cap: nat): (res: (World<K, V>, seq<bool>))
    ensures |res.1| == |ops|
    decreases |ops|
  {
    if ops == [] then (w, [])
    else
      var first := Step(w, ops[0], cap);
      var rest := Run(first.0, ops[1..], cap);
      (rest.0, [first.1] + rest.1)
  }

  /** The values of the pushes to `k` that were accepted, in call order. */
  function Accepted<K(==), V>(ops: seq<Op<K, V>>, results: seq<bool>, k: K): seq<V>
    requires |results| == |ops|
    decreases |ops|
  {
    if ops == [] then []
    else (if ops[0].PushOp? && ops[0].key == k && results[0] then [ops[0].value] else [])
         + Accepted(ops[1..], results[1..], k)
  }

  /** One call moves values of `k` only from "accepted push" to "queued" and
      from "queued" to "delivered". */
  lemma StepConserves<K, V>(w: World<K, V>, op: Op<K, V>, cap: nat, k: K)
    ensures var (w', ok) := Step(w, op, cap);
            ValuesFor(w'.log, k) + PendingAt(w'.reg, k) ==
            ValuesFor(w.log, k) + PendingAt(w.reg, k) +
            (if op.PushOp? && op.key == k && ok then [op.value] else [])
  {
    var before := ValuesFor(w.log, k);
    var p := PendingAt(w.reg, k);
    match op
    case SubscribeOp(j, c) =>
      assert PendingAt(Subscribe(w.reg, j, c).0, k) == p;
      assert before + p + [] == before + p;
    case UnsubscribeOp(j) =>
      assert PendingAt(Unsubscribe(w.reg, j), k) == p;
      assert before + p + [] == before + p;
    case PushOp(j, v) =>
      var res := Push(w.reg, j, v, cap);
      var added := if j == k && res.1 then [v] else [];
      assert PendingAt(res.0, k) == p + added;
      AppendAssoc(before, p, added);
    case SweepOp(order) =>
      var res := SweepInOrder(w.reg, order);
      var bound := k in w.reg && k in order && w.reg[k].consumer.Some?;
      ValuesForAppend(w.log, res.1, k);
      SweepDeliversPerKey(w.reg, order, k);
      SweepLeaves(w.reg, order);
      assert PendingAt(res.0, k) == if bound then [] else p;
      AppendAssoc(before, ValuesFor(res.1, k), PendingAt(res.0, k));
      assert ValuesFor(res.1, k) + PendingAt(res.0, k) == p;
      assert before + p + [] == before + p;
  }

  /** Sequence concatenation regroups. Stated once as a lemma so that the
      proof of RunConserves uses this one instance instead of reasoning about
      sequence equality in its whole context. */
  lemma AppendAssoc<T>(a: seq<T>, b: seq<T>, c: seq<T>)
    ensures (a + b) + c == a + (b + c)
  {
  }

  /** No loss, no duplication, per-key FIFO: over any history, what has been
      delivered for `k` followed by what is still queued for `k` is exactly
      the accepted pushes to `k`, in the order they were made. */
  lemma {:induction false} RunConserves<K, V>(w: World<K, V>, ops: seq<Op<K, V>>, cap: nat, k: K)
    ensures var (w', results) := Run(w, ops, cap);
            ValuesFor(w'.log, k) + PendingAt(w'.reg, k) ==
            ValuesFor(w.log, k) + PendingAt(w.reg, k) + Accepted(ops, results, k)
    decreases |ops|
  {
    if ops != [] {
      var first := Step(w, ops[0], cap);
      var rest := Run(first.0, ops[1..], cap);
      var results := [first.1] + rest.1;
      assert Run(w, ops, cap) == (rest.0, results);
      assert results[1..] == rest.1;
      var head := if ops[0].PushOp? && ops[0].key == k && first.1 then [ops[0].value] else [];
      var tail := Accepted(ops[1..], rest.1, k);
      assert Accepted(ops, results, k) == head + tail;
      var before := ValuesFor(w.log, k) + PendingAt(w.reg, k);
      assert ValuesFor(first.0.log, k) + PendingAt(first.0.reg, k) == before + head by {
        StepConserves(w, ops[0], cap, k);
      }
      assert ValuesFor(rest.0.log, k) + PendingAt(rest.0.reg, k) == (before + head) + tail by {
        RunConserves(first.0, ops[1..], cap, k);
      }
      assert (before + head) + tail == before + (head + tail) by {
        AppendAssoc(before, head, tail);
      }
    }
  }

  /** From a fresh processor, the values delivered for a key are a prefix of
      the values accepted for it, in push order. */
  lemma DeliveredInPushOrder<K, V>(ops: seq<Op<K, V>>, cap: nat, k: K)
    ensures var (w', results) := Run(World(map[], []), ops, cap);
            ValuesFor(w'.log, k) <= Accepted(ops, results, k)
  {
    var w0: World<K, V> := World(map[], []);
    var (w', results) := Run(w0, ops, cap);
    RunConserves(w0, ops, cap, k);
    assert ValuesFor(w0.log, k) + PendingAt(w0.reg, k) == [];
    assert ValuesFor(w'.log, k) + PendingAt(w'.reg, k) == Accepted(ops, results, k);
  }

  /** The pushes of the values of `vs` to `k`, one after the other. */
  function Pushes<K, V>(k: K, vs: seq<V>): (ops: seq<Op<K, V>>)
    ensures |ops| == |vs|
    ensures forall i :: 0 <= i < |vs| ==> ops[i] == PushOp(k, vs[i])
  {
    seq(|vs|, i requires 0 <= i < |vs| => PushOp(k, vs[i]))
  }

  /** Backpressure: pushing values one after another to a key whose queue
      holds `m` values, with no sweep in between, accepts exactly the pushes
      made while fewer than `cap` values are queued and rejects every later
      one. */
  lemma {:induction false} PushesUntilFull<K, V>(w: World<K, V>, k: K, vs: seq<V>, cap: nat)
    ensures var results := Run(w, Pushes(k, vs), cap).1;
            forall i :: 0 <= i < |vs| ==> results[i] == (|PendingAt(w.reg, k)| + i < cap)
    decreases |vs|
  {
    if vs != [] {
      var ops := Pushes(k, vs);
      var first := Step(w, ops[0], cap);
      assert ops[1..] == Pushes(k, vs[1..]);
      var rest := Run(first.0, ops[1..], cap);
      assert Run(w, ops, cap).1 == [first.1] + rest.1;
      var m := |PendingAt(w.reg, k)|;
      assert first.1 == (m < cap);
      assert |PendingAt(first.0.reg, k)| == if m < cap then m + 1 else m;
      PushesUntilFull(first.0, k, vs[1..], cap);
      forall i | 1 <= i < |vs|
        ensures Run(w, ops, cap).1[i] == (m + i < cap)
      {
        assert Run(w, ops, cap).1[i] == rest.1[i - 1];
        assert rest == Run(first.0, Pushes(k, vs[1..]), cap);
        assert 0 <= i - 1 < |vs[1..]|;
        assert Run(first.0, Pushes(k, vs[1..]), cap).1[i - 1] == (|PendingAt(first.0.reg, k)| + (i - 1) < cap);
      }
    }
  }

  /** Every call keeps every queue within capacity. */
  lemma {:induction false} RunWithinCapacity<K, V>(w: World<K, V>, ops: seq<Op<K, V>>, cap: nat)
    requires WithinCapacity(w.reg, cap)
    ensures WithinCapacity(Run(w, ops, cap).0.reg, cap)
    decreases |ops|
  {
    if ops != [] {
      var first := Step(w, ops[0], cap);
      if ops[0].SweepOp? {
        SweepLeaves(w.reg, ops[0].order);
      }
      assert WithinCapacity(first.0.reg, cap);
      RunWithinCapacity(first.0, ops[1..], cap);
    }
  }

  /** The registry only grows: no call removes a key. */
  lemma {:induction false} RunKeepsKeys<K, V>(w: World<K, V>, ops: seq<Op<K, V>>, cap: nat)
    ensures w.reg.Keys <= Run(w, ops, cap).0.reg.Keys
    decreases |ops|
  {
    if ops != [] {
      RunKeepsKeys(Step(w, ops[0], cap).0, ops[1..], cap);
    }
  }

  /** Only the consumer bound to a key at the time of a sweep receives that
      key's values; a failed second subscription never receives any. */
  lemma SecondSubscriberGetsNothing<K, V>(r: Reg<K, V>, k: K, c1: ConsumerId, c2: ConsumerId, order: seq<K>)
    ensures var (r1, ok1) := Subscribe(r, k, c1);
            var (r2, ok2) := Subscribe(r1, k, c2);
            !ok2 && (ok1 ==> forall d :: d in SweepInOrder(r2, order).1 && d.key == k ==> d.consumer == c1)
  {
    var (r1, ok1) := Subscribe(r, k, c1);
    var (r2, ok2) := Subscribe(r1, k, c2);
    SweepDeliversToBoundConsumer(r2, order);
  }

  /** Unsubscribing pauses delivery without losing values: a sweep after the
      unsubscribe delivers nothing for the key and leaves its queue in place;
      when a consumer subscribes afterwards, the next sweep delivers it
      exactly what was queued at the unsubscribe, in order. */
  lemma UnsubscribePausesDelivery<K, V>(r: Reg<K, V>, k: K, c: ConsumerId, order: seq<K>)
    requires k in r && k in order
    ensures var r1 := Unsubscribe(r, k);
            var (r2, sent) := SweepInOrder(r1, order);
            var (r3, ok) := Subscribe(r2, k, c);
            ValuesFor(sent, k) == [] && ok &&
            ValuesFor(SweepInOrder(r3, order).1, k) == r[k].pending
  {
    var r1 := Unsubscribe(r, k);
    var (r2, sent) := SweepInOrder(r1, order);
    var (r3, ok) := Subscribe(r2, k, c);
    SweepDeliversPerKey(r1, order, k);
    SweepLeaves(r1, order);
    assert r2[k] == r1[k];
    SweepDeliversPerKey(r3, order, k);
  }

  /** One call that is not an unsubscribe of `k` keeps `c` bound to `k`, only
      appends to the log, and delivers `k`'s values to `c` alone. */
  lemma StepKeepsBinding<K, V>(w: World<K, V>, op: Op<K, V>, cap: nat, k: K, c: ConsumerId)
    requires k in w.reg && w.reg[k].consumer == Some(c)
    requires !(op.UnsubscribeOp? && op.key == k)
    ensures var w' := Step(w, op, cap).0;
            k in w'.reg && w'.reg[k].consumer == Some(c) && w.log <= w'.log &&
            forall d :: d in w'.log[|w.log|..] && d.key == k ==> d.consumer == c
  {
    if op.SweepOp? {
      var res := SweepInOrder(w.reg, op.order);
      SweepLeaves(w.reg, op.order);
      SweepDeliversToBoundConsumer(w.reg, op.order);
      assert (w.log + res.1)[|w.log|..] == res.1;
    }
  }

  /** One consumer per key over whole histories: once `c` is bound to `k`, and
      as long as `k` is not unsubscribed, `c` stays bound and every later
      delivery for `k` goes to `c`; a competing subscription cannot take the
      key over. */
  lemma {:induction false} BoundConsumerKeepsKey<K, V>(w: World<K, V>, ops: seq<Op<K, V>>, cap: nat, k: K, c: ConsumerId)
    requires k in w.reg && w.reg[k].consumer == Some(c)
    requires forall i :: 0 <= i < |ops| ==> !(ops[i].UnsubscribeOp? && ops[i].key == k)
    ensures var w' := Run(w, ops, cap).0;
            k in w'.reg && w'.reg[k].consumer == Some(c) && w.log <= w'.log &&
            forall d :: d in w'.log[|w.log|..] && d.key == k ==> d.consumer == c
    decreases |ops|
  {
    if ops != [] {
      var first := Step(w, ops[0], cap).0;
      StepKeepsBinding(w, ops[0], cap, k, c);
      assert forall i :: 0 <= i < |ops[1..]| ==> ops[1..][i] == ops[i + 1];
      BoundConsumerKeepsKey(first, ops[1..], cap, k, c);
      var w' := Run(first, ops[1..], cap).0;
      assert w' == Run(w, ops, cap).0;
      forall d | d in w'.log[|w.log|..] && d.key == k
        ensures d.consumer == c
      {
        var i :| |w.log| <= i < |w'.log| && w'.log[i] == d;
        if i < |first.log| {
          assert d in first.log[|w.log|..] by {
            assert first.log[i] == d;
          }
        } else {
          assert d in w'.log[|first.log|..];
        }
      }
    }
  }

  /** A final sweep delivers everything: starting from a fresh processor, after any
      history followed by a sweep that visits `k` while a consumer is bound to
      it, the values delivered for `k` are exactly the values accepted for it,
      in push order. */
  lemma FinalSweepDeliversAccepted<K, V>(ops: seq<Op<K, V>>, cap: nat, k: K, order: seq<K>)
    requires var w := Run(World(map[], []), ops, cap).0;
             k in w.reg && w.reg[k].consumer.Some? && k in order
    ensures var (w, results) := Run(World(map[], []), ops, cap);
            ValuesFor(Step(w, SweepOp(order), cap).0.log, k) == Accepted(ops, results, k)
  {
    var w0: World<K, V> := World(map[], []);
    var (w, results) := Run(w0, ops, cap);
    var w2 := Step(w, SweepOp(order), cap).0;
    RunConserves(w0, ops, cap, k);
    assert ValuesFor(w0.log, k) + PendingAt(w0.reg, k) == [];
    StepConserves(w, SweepOp(order), cap, k);
    SweepLeaves(w.reg, order);
    assert PendingAt(w2.reg, k) == [];
    assert ValuesFor(w2.log, k) + [] == ValuesFor(w2.log, k);
  }
}

=== FILE: signal_dispatcher.dfy ===
/** The coalescing wakeup of SignalDispatcher.h: one boolean that `Signal`
    sets and `WaitForSignal` clears. The mutex and condition variable are not
    modelled; a wait that would block is a wait whose precondition (the flag
    is set) does not hold. */
module SignalDispatch {
  import opened Wrappers

  class SignalDispatcher {
    var flag: bool
    /** How many times `Signal` has notified waiters (the calls to
        notify_all); it lets callers state when a signal was raised. */
    ghost var notifications: nat

    /** A new dispatcher has no pending signal. */
    constructor ()
      ensures !flag && notifications == 0
    {
      flag := false;
      notifications := 0;
    }

    /** Sets the flag, whatever it was, and notifies. */
    method Signal()
      modifies this
      ensures flag && notifications == old(notifications) + 1
      ensures Next(old(flag), Ring) == Some(flag)
    {
      flag := true;
      notifications := notifications + 1;
    }

    /** Returns only once the flag is set, and consumes it. */
    method WaitForSignal()
      requires flag
      modifies this
      ensures !flag && notifications == old(notifications)
      ensures Next(old(flag), Wait) == Some(flag)
    {
      flag := false;
    }
  }

  /** The two operations as events on the flag. */
  datatype Event = Ring | Wait

  /** The flag after one event, or None when the event is a wait that cannot
      return because the flag is clear. */
  function Next(flag: bool, e: Event): Option<bool>
  {
    match e
    case Ring => Some(true)
    case Wait => if flag then Some(false) else None
  }

  /** The flag after a whole sequence of events, or None if some wait in it
      would block forever (no later event can come from the same thread). */
  function Replay(flag: bool, events: seq<Event>): Option<bool>
    decreases |events|
  {
    if events == [] then Some(flag)
    else match Next(flag, events[0])
      case None => None
      case Some(f) => Replay(f, events[1..])
  }

  function Rings(n: nat): (r: seq<Event>)
    ensures |r| == n && forall i :: 0 <= i < n ==> r[i] == Ring
  {
    if n == 0 then [] else [Ring] + Rings(n - 1)
  }

  function Count(events: seq<Event>, e: Event): (c: nat)
    ensures c <= |events|
  {
    if events == [] then 0
    else (if events[0] == e then 1 else 0) + Count(events[1..], e)
  }

  lemma {:induction false} ReplayAppend(flag: bool, a: seq<Event>, b: seq<Event>)
    ensures Replay(flag, a + b) ==
            (match Replay(flag, a) case None => None case Some(f) => Replay(f, b))
    decreases |a|
  {
    if a == [] {
      assert a + b == b;
    } else {
      assert (a + b)[1..] == a[1..] + b;
      match Next(flag, a[0])
      case None =>
      case Some(f) => ReplayAppend(f, a[1..], b);
    }
  }

  /** Coalescing: any positive number of signals leaves the same state as one,
      whatever the flag was before. */
  lemma {:induction false} SignalsCoalesce(flag: bool, n: nat)
    requires n >= 1
    ensures Replay(flag, Rings(n)) == Replay(flag, [Ring]) == Some(true)
    decreases n
  {
    if n > 1 {
      assert Rings(n)[1..] == Rings(n - 1);
      SignalsCoalesce(true, n - 1);
    }
  }

  /** A burst of signals releases exactly one wait: after it the flag is back
      to its initial cleared state, and a second wait blocks. */
  lemma OneWakeupPerBurst(n: nat)
    requires n >= 1
    ensures Replay(false, Rings(n) + [Wait]) == Some(false)
    ensures Replay(false, Rings(n) + [Wait, Wait]) == None
  {
    SignalsCoalesce(false, n);
    ReplayAppend(false, Rings(n), [Wait]);
    ReplayAppend(false, Rings(n), [Wait, Wait]);
  }

  /** Waits never outnumber signals: in any history that does not block, the
      number of completed waits is at most the number of signals, plus one if
      the flag was already set at the start. */
  lemma {:induction false} WaitsBoundedBySignals(flag: bool, events: seq<Event>)
    requires Replay(flag, events).Some?
    ensures Count(events, Wait) <= Count(events, Ring) + (if flag then 1 else 0)
    ensures Replay(flag, events).value ==>
              Count(events, Wait) < Count(events, Ring) + (if flag then 1 else 0)
    decreases |events|
  {
    if events != [] {
      WaitsBoundedBySignals(Next(flag, events[0]).value, events[1..]);
    }
  }
}

=== FILE: thread_safe_queue.dfy ===
/** The two-pointer FIFO queue of ThreadSafeQueue.h: a singly linked list that
    always ends in one empty sentinel node. `Push` fills the sentinel and
    appends a fresh one; `PopHead` detaches the first node unless the head is
    the sentinel. The two mutexes are not modelled: every operation is one
    sequential step. */
module TwoLockQueue {
  import opened Wrappers

  /** A list node. `data` is None exactly in the tail sentinel. */
  class Node<T> {
    var data: Option<T>
    var next: Node?<T>

    constructor ()
      ensures data == None && next == null
    {
      data := None;
      next := null;
    }
  }

  class ThreadSafeQueue<T> {
    // implementation state, as in the source
    var head: Node<T>
    var tail: Node<T>
    var size: nat

    // public view: the queued values, oldest first
    ghost var Contents: seq<T>
    // the nodes from head to tail, in list order
    ghost var Spine: seq<Node<T>>
    ghost var Repr: set<object>

    /** The sentinel invariant: the spine runs from head to tail through the
        `next` links, every node before the tail carries the value at its
        position, the tail is an empty node with no successor, no node occurs
        twice, and the counter equals the number of data-carrying nodes. */
    ghost predicate Valid()
      reads this, Repr
      ensures Valid() ==> this in Repr
    {
      this in Repr &&
      |Spine| == |Contents| + 1 &&
      (forall i :: 0 <= i < |Spine| ==> Spine[i] in Repr) &&
      Spine[0] == head && Spine[|Spine| - 1] == tail &&
      (forall i :: 0 <= i < |Spine| - 1 ==>
         Spine[i].next == Spine[i + 1] && Spine[i].data == Some(Contents[i])) &&
      tail.next == null && tail.data == None &&
      (forall i, j :: 0 <= i < j < |Spine| ==> Spine[i] != Spine[j]) &&
      size == |Contents|
    }

    /** A new queue is one sentinel node: head and tail coincide, size 0. */
    constructor ()
      ensures Valid() && fresh(Repr)
      ensures Contents == [] && head == tail && size == 0
    {
      var sentinel := new Node<T>();
      head, tail, size := sentinel, sentinel, 0;
      Contents, Spine := [], [sentinel];
      Repr := {this, sentinel};
    }

    /** The number of queued values, read from the counter. */
    method Size() returns (n: nat)
      requires Valid()
      ensures n == |Contents|
    {
      n := size;
    }

    /** Writes the value into the current sentinel and links a fresh sentinel
        behind it. */
    method Push(v: T)
      requires Valid()
      modifies Repr
      ensures Valid() && fresh(Repr - old(Repr))
      ensures Contents == old(Contents) + [v]
      ensures old(tail).data == Some(v) && old(tail).next == tail
      ensures fresh(tail) && Repr == old(Repr) + {tail}
    {
      var sentinel := new Node<T>();
      tail.data := Some(v);
      tail.next := sentinel;
      tail := sentinel;
      size := size + 1;
      Contents := Contents + [v];
      Spine := Spine + [sentinel];
      Repr := Repr + {sentinel};
    }

    /** Detaches and returns the head node, or returns null when the head is
        the sentinel; in that case nothing changes. */
    method PopHead() returns (node: Node?<T>)
      requires Valid()
      modifies Repr
      ensures Valid() && Repr <= old(Repr)
      ensures node == null <==> old(Contents) == []
      ensures node == null ==> unchanged(this) && unchanged(old(Repr))
      ensures node != null ==>
                node == old(head) && node !in Repr && node.next == null &&
                node.data == Some(old(Contents)[0]) && Contents == old(Contents)[1..]
    {
      if head == tail {
        return null;
      }
      assert head.next == Spine[1];
      size := size - 1;
      node := head;
      head := node.next;
      node.next := null;
      Contents := Contents[1..];
      Spine := Spine[1..];
      Repr := Repr - {node};
    }

    /** The oldest value, removed from the queue, or None when the queue is
        empty (and then nothing changes). */
    method TryPop() returns (r: Option<T>)
      requires Valid()
      modifies Repr
      ensures Valid() && Repr <= old(Repr)
      ensures r == None <==> old(Contents) == []
      ensures r == None ==> unchanged(this) && unchanged(old(Repr))
      ensures r != None ==> r.value == old(Contents)[0] && Contents == old(Contents)[1..]
    {
      var oldHead := PopHead();
      r := if oldHead != null then oldHead.data else None;
    }
  }

  /** FIFO order end to end: push every value of `xs` into a new queue, then
      pop until the queue reports empty; the popped values are `xs`, in order. */
  method FifoRoundTrip<T>(xs: seq<T>) returns (ys: seq<T>)
    ensures ys == xs
  {
    var q := new ThreadSafeQueue<T>();
    var i := 0;
    while i < |xs|
      invariant 0 <= i <= |xs|
      invariant q.Valid() && fresh(q.Repr)
      invariant q.Contents == xs[..i]
    {
      q.Push(xs[i]);
      i := i + 1;
    }
    ys := [];
    var r := q.TryPop();
    while r != None
      invariant q.Valid() && fresh(q.Repr)
      invariant r != None ==> ys + [r.value] + q.Contents == xs
      invariant r == None ==> ys == xs
      decreases |q.Contents|, r != None
    {
      ys := ys + [r.value];
      r := q.TryPop();
    }
  }
}

=== FILE: wrappers.dfy ===
/** Option: the model of a pointer that may be null (a `shared_ptr` to a value,
    a consumer pointer). */
module Wrappers {
  datatype Option<+T> = None | Some(value: T)
}
